=== FILE: README.md ===
# CastedHash in Dafny

A model of `CastedHash`, a Ruby `Hash` subclass. It stores raw values together
with a cast proc. A value is cast the first time it is read, and the cast
value is written back in place. The class keeps two key lists:

- `@casted_keys`: keys whose stored value is already cast;
- `@casting_keys`: keys whose cast is running right now. This is the
  re-entrancy guard.

Writes and deletes clear a key's cast mark. `update` copies cast marks over
from another `CastedHash`. Symbol keys are normalised to strings.

The model is functional. A `CastedHash` is an immutable record of four parts:

- the ordered table (`RubyHash.Hash`, a key sequence in insertion order plus a map);
- the set of cast keys;
- the set of keys being cast;
- the cast proc.

Every operation returns a new record. An operation that can raise returns a
`Step`: the state after the call, plus either the return value or the error.
The `ensure` clause of `cast!` changes the state even when the call raises,
which is why the state travels with the error.

Files:

- `wrappers.dfy`: `Option` and `Result`.
- `objects.dfy`: the Ruby objects used as keys and values, and `convert_key`.
- `ruby_hash.dfy`: the behaviour of Ruby's ordered `Hash` that the class
  relies on. This is `[]` with default nil, `[]=` (an existing key keeps its
  position), `delete`, iteration order, and copying into an empty hash.
- `casted_hash.dfy`: the class itself.
- `casted_hash_lemmas.dfy`: properties that relate several calls.
- `examples.dfy`: two worked runs. One proc upcases strings and the other
  increments integers.

The cast proc is a fixed function from its argument list to a value or a
raised error. The argument list follows the source's arity dispatch:

| arity | arguments |
|---|---|
| 1 | the raw value |
| 2 | the hash and the raw value |
| 3 | the hash, the key and the raw value |
| any other | none |

The hash argument itself is not modelled.

Behaviour of the code that is easy to misread, and that the model states as written:

- `fetch` on a stored key whose value is nil returns nil. `Hash#fetch` finds
  the key, so the default is used, or `KeyError` raised, only when the
  normalised key is absent (`FetchStoredNil`, `Fetch`).
- `transform_keys` starts from a copy and writes each `f(key)` through
  `[]=`. The original keys stay in the result, and every renamed key ends
  uncast (`TransformKeys`).
- An arity of 0 is not handled on its own. Every arity other than 1, 2 and 3, including
  0 and the negative arities of procs with optional arguments, is called
  with no arguments (`ArgumentsFor`).
- `update` reads its argument through `each_pair`, which the class does not
  override. Updating from another `CastedHash` therefore copies its values
  raw or cast, as they are, and casts nothing in it (`UpdateFromCastedHash`).
- The `ensure` of `cast!` also runs when `cast!` raises `SystemStackError`
  for a re-entrant read. The inner call therefore removes the key from the
  casting set while the outer cast is still running (`ReentrantCastRaises`).

## Model

| member | source | states |
|---|---|---|
| Objects.ConvertKey | lib/casted_hash.rb:195-197 | a Symbol becomes the String of its name; every other key is unchanged; the result is never a Symbol |
| Objects.ConvertKeyIdempotent | lib/casted_hash.rb:195-197 | normalising a normalised key changes nothing |
| Objects.ConvertKeyCollisions | lib/casted_hash.rb:195-197 | two keys reach the same entry iff they are equal or are a Symbol and the String of its name |
| RubyHash.Put | lib/casted_hash.rb:53-55 | `[]=` on the underlying Hash: the entry is replaced, an existing key keeps its position, a new key is appended, and a well-formed hash stays well-formed |
| RubyHash.Read | lib/casted_hash.rb:24 | `regular_reader`, the Hash's own `[]`: a stored key gives its value and an absent key gives nil |
| RubyHash.Remove | lib/casted_hash.rb:105 | `Hash#delete`: the key leaves the entries; a stored key leaves its one position with the other keys kept in order; an absent key changes nothing; a well-formed hash stays well-formed |
| RubyHash.Pairs | lib/casted_hash.rb:71 | `each_pair` yields one pair per key, in insertion order, each with the stored value |
| RubyHash.Values | lib/casted_hash.rb:110 | `Hash#values` gives one value per key, in insertion order |
| RubyHash.CopyIsIdentity | lib/casted_hash.rb:131-137 | copying every key of a well-formed hash into an empty one, in order, gives the same hash |
| CastedHashes.IsCasted | lib/casted_hash.rb:123-125 | `casted?` asks about the normalised key: a Symbol is cast iff the String of its name is |
| CastedHashes.IsCasting | lib/casted_hash.rb:127-129 | `casting?` asks about the normalised key: a Symbol is being cast iff the String of its name is |
| CastedHashes.HasKey | lib/casted_hash.rb:86-88 | `key?` asks about the normalised key: a Symbol is stored iff the String of its name is |
| CastedHashes.MarkCasted | lib/casted_hash.rb:147-151 | `casted!` marks every given key that is stored; every newly marked key is the normalised form of a given key, and a key that is not stored is never marked |
| CastedHashes.MarkCasting | lib/casted_hash.rb:153-157 | `casting!` marks every given stored key as being cast; every newly marked key is the normalised form of a given key, and a key that is not stored is never marked |
| CastedHashes.Uncast | lib/casted_hash.rb:161-163 | `uncast!` removes exactly the given key from the cast keys |
| CastedHashes.ArgumentsFor | lib/casted_hash.rb:172-180 | arity 1, 2 or 3 passes the raw value; arity 3 also passes the key; every other arity passes nothing |
| CastedHashes.Cast | lib/casted_hash.rb:165-189 | absent key reads nil and changes nothing; a cast key returns its stored value; a key being cast raises SystemStackError; otherwise the proc's result replaces the raw value and the key becomes cast, and a proc error leaves the entry uncast; the call succeeds exactly when neither the re-entrancy check nor the proc raises; on every exit the key leaves the casting set |
| CastedHashes.InFlight | lib/casted_hash.rb:170 | `casting! key`, the state the proc runs against: the casting set gains exactly the key if it is stored, and nothing else changes |
| CastedHashes.Get | lib/casted_hash.rb:35-37 | `[]` returns what is now stored under the normalised key, or nil when absent, and a stored key is cast afterwards |
| CastedHashes.Fetch | lib/casted_hash.rb:39-48 | for a stored key, `fetch` behaves exactly as `[]`; for an absent key it returns the default, or raises KeyError without one |
| CastedHashes.Set | lib/casted_hash.rb:57-60 | `[]=` stores the value under the normalised key and always clears its cast mark; every other entry and mark is unchanged; the casted-subset-of-stored invariant is kept |
| CastedHashes.Delete | lib/casted_hash.rb:102-106 | `delete` returns the old value, or nil when absent, and removes the key from the entries and the cast keys; the other keys keep their order, and deleting an absent key leaves the table as it was |
| CastedHashes.UpdateOne | lib/casted_hash.rb:71-79 | one pair of `update` writes the value, and the key ends cast iff the source is a CastedHash in which it is cast; a new key is appended, an existing one keeps its place |
| CastedHashes.UpdatePairs | lib/casted_hash.rb:71-79 | the `update` loop adds exactly the written keys, and keys it does not write keep their values and marks; from a plain Hash every written key ends uncast; existing keys keep their positions |
| CastedHashes.KeysAfter | lib/casted_hash.rb:71-72 | the key order after writing pairs: the existing keys stay first, in place, and each new normalised key is appended at its first write |
| CastedHashes.UpdatePairsKeyOrder | lib/casted_hash.rb:71-72 | the `update` loop's key order is exactly that reference order |
| CastedHashes.Update | lib/casted_hash.rb:68-82 | `update` with an empty argument returns the receiver unchanged; otherwise it has the effect of its loop over the argument's pairs, and new keys are appended in the order the argument first writes them |
| CastedHashes.New | lib/casted_hash.rb:4-22 | the constructor raises ArgumentError iff there is no proc; from a plain Hash it stores exactly the argument's normalised keys, in first-write order, and nothing is cast; from a CastedHash the table and cast keys are copied; the casting set starts empty |
| CastedHashes.Dup | lib/casted_hash.rb:98-100 | `dup` has the same table and cast keys, an empty casting set and the same proc |
| CastedHashes.Merge | lib/casted_hash.rb:64-66 | `merge` has the keys of both hashes, the argument's new keys appended in first-write order; keys the argument does not write keep the receiver's values and marks; a plain Hash argument clears the marks of every key it writes; the casting set is empty |
| CastedHashes.CastKeys | lib/casted_hash.rb:192 | the `cast_all!` loop keeps the keys, the values of cast keys and the raw values of keys left uncast, and loses no mark; every key it newly casts holds the proc's result on its raw value; it succeeds exactly when no listed key would raise, so a listed stored key that is uncast and already being cast makes it raise; on success every listed stored key is cast |
| CastedHashes.CastAll | lib/casted_hash.rb:191-193 | `cast_all!` only casts: keys, order, marks, cast values and the raw values of uncast keys stay, and each newly cast key holds the proc's result; it succeeds exactly when no stored key would raise, so a stored uncast key that is being cast, or a proc error, makes it raise; on success every stored key is cast and holds its cast value |
| CastedHashes.Values | lib/casted_hash.rb:108-111 | `values` casts every key first and only casts; it returns exactly when no key would raise, and otherwise raises; on success it gives in key order each key's cast value: the stored one if already cast, else the proc's result on the raw value |
| CastedHashes.Each | lib/casted_hash.rb:113-116 | `each` casts every key first and only casts; it yields exactly when no key would raise, and otherwise raises; on success it gives the pairs in key order, each key with its cast value |
| CastedHashes.CastedHashOf | lib/casted_hash.rb:118-121 | `casted_hash` casts every key and only casts; it returns exactly when no key would raise, and otherwise raises; on success it gives the hash itself with every key holding its cast value |
| CastedHashes.ValuesAt | lib/casted_hash.rb:94-96 | `values_at` is `[]` of each key in turn and only casts; it returns exactly when no requested key would raise; on success it gives nil for an absent key and else the key's cast value, with every stored requested key cast; on failure the key that raised is the first requested one whose read would raise, and every stored key requested before it is cast |
| CastedHashes.ToHash | lib/casted_hash.rb:131-137 | `to_hash` is exactly the current table, raw or cast, in key order |
| CastedHashes.CastedView | lib/casted_hash.rb:139-145 | `casted` has exactly the cast keys, each with its stored value |
| CastedHashes.RewriteKeys | lib/casted_hash.rb:29-31 | the `transform_keys` loop casts nothing, drops no key, and leaves every renamed key stored and uncast |
| CastedHashes.SetIsPlainUpdate | lib/casted_hash.rb:57-60 | `[]=` has the same effect as one step of `update` from a plain Hash |
| CastedHashes.RewriteKeysIsUpdate | lib/casted_hash.rb:29-31 | the `transform_keys` loop is `update` with the renamed pairs |
| CastedHashes.TransformKeys | lib/casted_hash.rb:26-33 | `transform_keys` keeps the original keys; every renamed key is stored and uncast; keys no renamed key hits keep their values and marks |
| CastedHashLemmas.SymbolAndStringAreOneKey | lib/casted_hash.rb:195-197 | `:a` and `"a"` behave identically for `key?`, `casted?`, `casting?`, `[]`, `fetch`, `[]=` and `delete` |
| CastedHashLemmas.CastAbsentChangesNothing | lib/casted_hash.rb:166 | casting an absent key returns nil and leaves the hash as it was |
| CastedHashLemmas.CastedReadSkipsProc | lib/casted_hash.rb:167 | reading a cast key gives the same result whatever the proc is |
| CastedHashLemmas.ReentrantCastRaises | lib/casted_hash.rb:168 | a read of a key from inside its own cast raises SystemStackError, and the key leaves the casting set |
| CastedHashLemmas.GetMemoizes | lib/casted_hash.rb:165-189 | a second read after a successful read returns the same value and changes nothing |
| CastedHashLemmas.FirstGetCallsProc | lib/casted_hash.rb:170-186 | the first read of a key calls the proc on the raw value; on success the key is cast, and on a raise it is not |
| CastedHashLemmas.SetInvalidates | lib/casted_hash.rb:57-60 | after `[]=` the key is uncast and the next read casts the new value |
| CastedHashLemmas.DeleteThenGet | lib/casted_hash.rb:102-106 | after `delete` the key reads as nil and is uncast |
| CastedHashLemmas.UpdateLastWriteWins | lib/casted_hash.rb:71-79 | in `update` the last pair that writes a key decides its value, and the key is cast iff that pair came cast from a CastedHash |
| CastedHashLemmas.UpdateFromCastedHash | lib/casted_hash.rb:74-75 | updating from a CastedHash copies each entry as it is, and the key is cast iff it is cast in the argument |
| CastedHashLemmas.UpdateFromPlainHash | lib/casted_hash.rb:76-78 | updating from a plain Hash leaves every written key uncast, with the value of its last pair |
| CastedHashLemmas.NewFromPlainHash | lib/casted_hash.rb:14-17 | the constructor from a plain Hash stores each key, normalised, with the value of its last pair, uncast |
| CastedHashLemmas.NewFromPlainHashRoundTrip | lib/casted_hash.rb:14-17 | the constructor from a well-formed plain Hash with normalised keys rebuilds that Hash: same keys, same order, same values |
| CastedHashLemmas.MergeFromPlainHash | lib/casted_hash.rb:64-66 | `merge` with a plain Hash gives each written key the value of its last pair and clears its cast mark |
| CastedHashLemmas.MergeFromCastedHash | lib/casted_hash.rb:64-66 | merging a CastedHash takes its entries and marks; the receiver's other entries and marks are kept |
| CastedHashLemmas.DupCopiesState | lib/casted_hash.rb:10-13 | `dup` equals the constructor applied to the hash, with the same table and cast keys and no key being cast |
| CastedHashLemmas.TransformKeysLastWriteWins | lib/casted_hash.rb:29-31 | a renamed key holds the value of the last original key renamed to it |
| CastedHashLemmas.CastAllMakesSnapshotsAgree | lib/casted_hash.rb:139-145 | after a successful `cast_all!`, `casted` and `to_hash` hold the same entries |
| CastedHashLemmas.FetchStoredNil | lib/casted_hash.rb:43-44 | `fetch` of a stored key whose value is nil returns nil, not the default |
| Examples.NewSingleIsFresh | lib/casted_hash.rb:14-17 | the constructor from a one-entry plain Hash stores that entry raw, with nothing cast and nothing being cast |
| Examples.UpcaseRun | lib/casted_hash.rb:35-60 | with an upcasing proc, `[]` gives "ADA" and marks the key cast; `[]=` clears the mark; the next `[]` gives "GRACE" |
| Examples.IncrementRun | lib/casted_hash.rb:39-48 | with an incrementing proc, `fetch` of an absent key gives the default or KeyError, and of `:n` gives 1 |

## Left out

- The hash passed to two- and three-argument procs is not modelled. The proc is a fixed function of its argument list, so procs that read or change other entries are not covered. Re-entrancy is modelled through the casting set alone (`InFlight`, `ReentrantCastRaises`).
- Exceptions raised by the proc are modelled as an error message. The model covers that the error propagates, that the entry stays uncast, and that the casting set is cleared. Nothing else about them is modelled.
- The constructor branch for an argument that is neither a Hash nor a CastedHash (`super(constructor)`, which sets a default value) is not modelled. Every hash here has the default value nil.
- `transform_keys` without a block, which returns an enumerator, is not modelled.
- Hash methods the class does not override (`clear`, `shift`, `reject!`, `select!`, `keep_if`, default procs, and so on) are not modelled. They bypass the cast bookkeeping.
- CastedHashes.CastedView: the result is a map, so the `casted` snapshot's order, which is the order in which keys were cast, is not stated.
- CastedHashes.Delete: the block form of `Hash#delete`, which `super(key)` passes on and which gives the value for an absent key, is not modelled. An absent key gives nil.
- CastedHashes.Fetch: the block form of `Hash#fetch` is not modelled. Neither is the ArgumentError for more than one default.
- CastedHashes.Uncast takes a single key. `Array#delete`, which `uncast!` splats its arguments into, accepts exactly one, and every caller passes one.
- CastedHashes.CastAll: on failure the contract does not say which key raised. Nor does it say that the keys before that key were cast. It does say that nothing but casting happened, and that the call fails exactly when some stored key's read would raise.
- Keys and values are limited to nil, booleans, integers, strings and symbols, compared by value. Ruby's `eql?`/`hash` distinctions, such as 1 vs 1.0, and the freezing of String keys are not modelled.
- Two properties are not stated as lemmas: that later writes to a `dup` do not affect the original, and that `merge` leaves its receiver unchanged. Every value here is immutable, so both hold by construction.
- Thread safety, `VERSION` and the `alias_method` guards are not modelled. They have no behaviour of their own.

=== FILE: casted_hash.dfy ===
/** CastedHash (lib/casted_hash.rb): a Ruby Hash that keeps raw values and a
    cast proc, casts a value the first time it is read, writes the cast value
    back in place and remembers which keys are cast (`@casted_keys`) and which
    are being cast right now (`@casting_keys`).

    The model is functional: a CastedHash is an immutable record and every
    operation returns the new record. Operations that may raise return a
    `Step`, which carries the state after the call together with either the
    returned value or the error, because the `ensure` clause of `cast!`
    changes the state even when it raises. */
module CastedHashes {
  import opened Wrappers
  import opened Objects
  import opened RubyHash

  /** The arguments the cast proc receives, chosen by its arity. The hash
      itself, which two- and three-argument procs get as their first
      argument, is not modelled: the proc is a fixed function of what is
      listed here. */
  datatype CastArgs =
    | NoArgs
    | RawArg(raw: Obj)
    | SelfRawArgs(raw: Obj)
    | SelfKeyRawArgs(key: Obj, raw: Obj)

  /** The cast proc: its arity and what it returns or raises for each
      argument list. */
  datatype CastProc = CastProc(arity: int, call: CastArgs -> Result<Obj, string>)

  /** What the class raises: `ArgumentError` without a cast proc,
      `SystemStackError` on a re-entrant cast, `KeyError` from `fetch`, and
      whatever the cast proc raises. */
  datatype Error =
    | ArgumentError
    | SystemStackError(key: Obj)
    | KeyError(key: Obj)
    | ProcRaised(message: string)

  /** The instance: the Hash it is, `@casted_keys`, `@casting_keys` and
      `@cast_proc`. The two key lists are sets here: `Array#delete` removes
      every copy of a key, so repeats in the lists are never observable. */
  datatype CastedHash = CastedHash(table: Hash, casted: set<Obj>, casting: set<Obj>, proc: CastProc)

  /** The state after a call that may raise, and its return value or error. */
  datatype Step<T> = Step(state: CastedHash, result: Result<T, Error>)

  /** The argument of `update`, `merge` and the constructor: a plain Hash or
      another CastedHash. */
  datatype Source = PlainSource(hash: Hash) | CastedSource(other: CastedHash)

  /** What the overridden operations keep true: the table is a well-formed
      ordered hash, every cast key is stored, and every stored key is
      normalised. */
  ghost predicate WellFormed(h: CastedHash) {
    && Valid(h.table)
    && h.casted <= h.table.vals.Keys
    && (forall k :: k in h.table.vals ==> IsNormal(k))
  }

  /** `casted?`: asks for the normalised key, so `:a` and `"a"` are one
      key. */
  function IsCasted(h: CastedHash, k: Obj): (b: bool)
    ensures k.Sym? ==> (b <==> Str(k.name) in h.casted)
    ensures !k.Sym? ==> (b <==> k in h.casted)
  {
    ConvertKey(k) in h.casted
  }

  /** `casting?`: asks for the normalised key. */
  function IsCasting(h: CastedHash, k: Obj): (b: bool)
    ensures k.Sym? ==> (b <==> Str(k.name) in h.casting)
    ensures !k.Sym? ==> (b <==> k in h.casting)
  {
    ConvertKey(k) in h.casting
  }

  /** `key?` and its aliases `include?`, `has_key?`, `member?`: asks for
      the normalised key. */
  function HasKey(h: CastedHash, k: Obj): (b: bool)
    ensures k.Sym? ==> (b <==> Has(h.table, Str(k.name)))
    ensures !k.Sym? ==> (b <==> Has(h.table, k))
  {
    Has(h.table, ConvertKey(k))
  }

  /** The normalised forms of the given keys that are stored in `h`. */
  function StoredKeys(h: CastedHash, keys: seq<Obj>): (s: set<Obj>)
    ensures s <= h.table.vals.Keys
    ensures forall k :: k in keys && HasKey(h, k) ==> ConvertKey(k) in s
  {
    set k | k in keys && HasKey(h, k) :: ConvertKey(k)
  }

  /** `casted!`: marks the given keys as cast, skipping keys that are not
      stored. */
  function MarkCasted(h: CastedHash, keys: seq<Obj>): (r: CastedHash)
    ensures r.table == h.table && r.casting == h.casting && r.proc == h.proc
    ensures h.casted <= r.casted
    ensures forall k :: k in keys && HasKey(h, k) ==> IsCasted(r, k)
    ensures r.casted - h.casted <= h.table.vals.Keys
    ensures forall x :: x in r.casted - h.casted ==> exists k :: k in keys && ConvertKey(k) == x
    ensures WellFormed(h) ==> WellFormed(r)
  {
    h.(casted := h.casted + StoredKeys(h, keys))
  }

  /** `casting!`: marks the given keys as being cast, skipping keys that are
      not stored. */
  function MarkCasting(h: CastedHash, keys: seq<Obj>): (r: CastedHash)
    ensures r.table == h.table && r.casted == h.casted && r.proc == h.proc
    ensures h.casting <= r.casting
    ensures forall k :: k in keys && HasKey(h, k) ==> IsCasting(r, k)
    ensures r.casting - h.casting <= h.table.vals.Keys
    ensures forall x :: x in r.casting - h.casting ==> exists k :: k in keys && ConvertKey(k) == x
  {
    h.(casting := h.casting + StoredKeys(h, keys))
  }

  /** `uncast!`: forgets that a key is cast. Every caller passes a key that
      is already normalised, and `Array#delete` takes exactly one. */
  function Uncast(h: CastedHash, key: Obj): (r: CastedHash)
    ensures key !in r.casted
    ensures forall x :: x != key ==> (x in r.casted <==> x in h.casted)
    ensures r.table == h.table && r.casting == h.casting && r.proc == h.proc
    ensures WellFormed(h) ==> WellFormed(r)
  {
    h.(casted := h.casted - {key})
  }

  /** The argument list for a proc of the given arity: arity 1 gets the raw
      value, 2 the hash and the raw value, 3 the hash, the key and the raw
      value, and every other arity nothing. */
  function ArgumentsFor(arity: int, key: Obj, raw: Obj): (a: CastArgs)
    ensures a.NoArgs? <==> arity != 1 && arity != 2 && arity != 3
    ensures a.RawArg? <==> arity == 1
    ensures a.SelfKeyRawArgs? <==> arity == 3
    ensures !a.NoArgs? ==> a.raw == raw
    ensures a.SelfKeyRawArgs? ==> a.key == key
  {
    if arity == 1 then RawArg(raw)
    else if arity == 2 then SelfRawArgs(raw)
    else if arity == 3 then SelfKeyRawArgs(key, raw)
    else NoArgs
  }

  /** What the cast proc of `h` returns or raises for the stored raw value. */
  function CallProc(h: CastedHash, key: Obj, raw: Obj): Result<Obj, string> {
    h.proc.call(ArgumentsFor(h.proc.arity, key, raw))
  }

  /** `casting! key`, the state the cast proc runs against while `key` is
      being cast: a stored key joins the casting set, and nothing else
      changes. */
  function InFlight(h: CastedHash, key: Obj): (r: CastedHash)
    ensures forall x :: x in r.casting <==> x in h.casting || (x == ConvertKey(key) && HasKey(h, key))
    ensures r.table == h.table && r.casted == h.casted && r.proc == h.proc
  {
    MarkCasting(h, [key])
  }

  /** A read of the normalised key `k` raises nothing: the key is absent or
      cast, or else it is not being cast and the proc accepts its raw value. */
  predicate ReadSucceeds(h: CastedHash, k: Obj) {
    Has(h.table, k) && k !in h.casted ==> k !in h.casting && CallProc(h, k, h.table.vals[k]).Success?
  }

  /** `cast!`, for the normalised key every caller passes.
      An absent key reads as nil, a cast key returns its stored value, a key
      already being cast raises, and any other key is cast: the proc's
      result replaces the raw value and the key becomes cast. Whatever
      happens, the key leaves the casting set on the way out. */
  function Cast(h: CastedHash, key: Obj): (o: Step<Obj>)
    requires IsNormal(key)
    ensures o.state.casting == h.casting - {key}
    ensures o.state.proc == h.proc
    ensures o.state.table.keys == h.table.keys
    ensures o.state.table.vals.Keys == h.table.vals.Keys
    ensures h.casted <= o.state.casted
    ensures forall x :: x != key ==> Read(o.state.table, x) == Read(h.table, x)
    ensures forall x :: x != key ==> (x in o.state.casted <==> x in h.casted)
    ensures !Has(h.table, key) ==>
              o.result == Success(Nil) && o.state.table == h.table && o.state.casted == h.casted
    ensures Has(h.table, key) && key in h.casted ==>
              o.result == Success(h.table.vals[key]) && o.state.table == h.table && o.state.casted == h.casted
    ensures Has(h.table, key) && key !in h.casted && key in h.casting ==>
              o.result == Failure(SystemStackError(key)) && o.state.table == h.table && o.state.casted == h.casted
    ensures Has(h.table, key) && key !in h.casted && key !in h.casting ==>
              var called := CallProc(h, key, h.table.vals[key]);
              && (called.Success? ==>
                    && o.result == Success(called.value)
                    && o.state.table == Put(h.table, key, called.value)
                    && o.state.casted == h.casted + {key})
              && (called.Failure? ==>
                    && o.result == Failure(ProcRaised(called.error))
                    && o.state.table == h.table
                    && o.state.casted == h.casted)
    ensures o.result.Success? <==> ReadSucceeds(h, key)
    ensures o.result.Success? ==> o.result.value == Read(o.state.table, key)
    ensures o.result.Success? && Has(h.table, key) ==> key in o.state.casted
    ensures WellFormed(h) ==> WellFormed(o.state)
  {
    var finished := h.(casting := h.casting - {key});
    if !Has(h.table, key) then Step(finished, Success(Nil))
    else if key in h.casted then Step(finished, Success(Read(h.table, key)))
    else if key in h.casting then Step(finished, Failure(SystemStackError(key)))
    else
      var inFlight := InFlight(h, key);
      match CallProc(inFlight, key, Read(inFlight.table, key))
      case Failure(e) => Step(finished, Failure(ProcRaised(e)))
      case Success(v) =>
        var written := inFlight.(table := Put(inFlight.table, key, v));
        var marked := MarkCasted(written, [key]);
        assert ConvertKey(key) == key && HasKey(written, key);
        assert StoredKeys(written, [key]) == {key};
        Step(marked.(casting := marked.casting - {key}), Success(v))
  }

  /** `[]`: normalises the key and casts it. What it returns is what is now
      stored under the key (nil when absent), and a stored key is now cast. */
  function Get(h: CastedHash, k: Obj): (o: Step<Obj>)
    ensures o.result.Success? ==> o.result.value == Read(o.state.table, ConvertKey(k))
    ensures o.result.Success? && HasKey(h, k) ==> IsCasted(o.state, k)
    ensures !HasKey(h, k) ==> o.result == Success(Nil)
    ensures !IsCasting(o.state, k)
    ensures o.state.table.vals.Keys == h.table.vals.Keys
    ensures WellFormed(h) ==> WellFormed(o.state)
  {
    Cast(h, ConvertKey(k))
  }

  /** `fetch`: like `[]`, except that when `[]` gives nil the call falls back
      to `Hash#fetch`, which returns the stored value if the key is present
      (even if that value is nil), else the default, else raises `KeyError`. */
  function Fetch(h: CastedHash, k: Obj, default: Option<Obj>): (o: Step<Obj>)
    ensures HasKey(h, k) ==> o == Get(h, k)
    ensures !HasKey(h, k) ==> o.state == Get(h, k).state
    ensures !HasKey(h, k) && default.Some? ==> o.result == Success(default.value)
    ensures !HasKey(h, k) && default.None? ==> o.result == Failure(KeyError(ConvertKey(k)))
  {
    var key := ConvertKey(k);
    var o := Cast(h, key);
    if o.result.Failure? || o.result.value != Nil then o
    else if Has(o.state.table, key) then Step(o.state, Success(o.state.table.vals[key]))
    else if default.Some? then Step(o.state, Success(default.value))
    else Step(o.state, Failure(KeyError(key)))
  }

  /** `[]=` and `store`: forgets that the key was cast, then stores the new
      raw value. Nothing else changes. */
  function Set(h: CastedHash, k: Obj, v: Obj): (r: CastedHash)
    ensures !IsCasted(r, k)
    ensures HasKey(r, k) && Read(r.table, ConvertKey(k)) == v
    ensures forall x :: x != ConvertKey(k) ==> Read(r.table, x) == Read(h.table, x)
    ensures forall x :: x != ConvertKey(k) ==> (x in r.casted <==> x in h.casted)
    ensures HasKey(h, k) ==> r.table.keys == h.table.keys
    ensures !HasKey(h, k) ==> r.table.keys == h.table.keys + [ConvertKey(k)]
    ensures r.casting == h.casting && r.proc == h.proc
    ensures WellFormed(h) ==> WellFormed(r)
  {
    var key := ConvertKey(k);
    var uncasted := Uncast(h, key);
    uncasted.(table := Put(uncasted.table, key, v))
  }

  /** `delete`: forgets that the key was cast and removes it, returning the
      value it had, or nil when it was absent. */
  function Delete(h: CastedHash, k: Obj): (r: (CastedHash, Obj))
    ensures r.1 == Read(h.table, ConvertKey(k))
    ensures !HasKey(r.0, k) && !IsCasted(r.0, k)
    ensures forall x :: x != ConvertKey(k) ==> Read(r.0.table, x) == Read(h.table, x)
    ensures forall x :: x != ConvertKey(k) ==> (x in r.0.casted <==> x in h.casted)
    ensures r.0.table.vals.Keys == h.table.vals.Keys - {ConvertKey(k)}
    ensures Valid(h.table) && !HasKey(h, k) ==> r.0.table == h.table
    ensures Valid(h.table) && HasKey(h, k) ==>
              var i := IndexOf(h.table.keys, ConvertKey(k));
              r.0.table.keys == h.table.keys[..i] + h.table.keys[i + 1..]
    ensures r.0.casting == h.casting && r.0.proc == h.proc
    ensures WellFormed(h) ==> WellFormed(r.0)
  {
    var key := ConvertKey(k);
    var uncasted := Uncast(h, key);
    (uncasted.(table := Remove(uncasted.table, key)), Read(h.table, key))
  }

  /** The table of an `update` argument. */
  function SourceTable(src: Source): Hash {
    match src
    case PlainSource(hash) => hash
    case CastedSource(other) => other.table
  }

  /** The argument of `update` is itself a CastedHash in which the key is
      already cast. */
  predicate SourceMarks(src: Source, key: Obj) {
    src.CastedSource? && IsCasted(src.other, key)
  }

  /** The normalised keys an `update` with these pairs writes. */
  function WrittenKeys(ps: seq<(Obj, Obj)>): (s: set<Obj>)
    ensures forall i :: 0 <= i < |ps| ==> ConvertKey(ps[i].0) in s
    ensures forall x :: x in s ==> IsNormal(x)
  {
    set i | 0 <= i < |ps| :: ConvertKey(ps[i].0)
  }

  /** The keys a non-empty list of pairs writes are its first key and the
      keys the rest writes. */
  lemma WrittenKeysFirst(ps: seq<(Obj, Obj)>)
    requires ps != []
    ensures WrittenKeys(ps) == {ConvertKey(ps[0].0)} + WrittenKeys(ps[1..])
  {
    forall x | x in WrittenKeys(ps)
      ensures x in {ConvertKey(ps[0].0)} + WrittenKeys(ps[1..])
    {
      var i :| 0 <= i < |ps| && x == ConvertKey(ps[i].0);
      if i > 0 {
        assert ps[1..][i - 1] == ps[i];
      }
    }
  }

  /** The key order after writing the pairs, in order, into a hash whose
      keys are `keys`: a normalised key already listed keeps its place, and
      each other one is appended where it is first written. */
  function KeysAfter(keys: seq<Obj>, ps: seq<(Obj, Obj)>): (r: seq<Obj>)
    ensures |keys| <= |r| && r[..|keys|] == keys
    decreases |ps|
  {
    if ps == [] then keys
    else
      var k := ConvertKey(ps[0].0);
      var r := KeysAfter(if k in keys then keys else keys + [k], ps[1..]);
      assert r[..|keys|] == (if k in keys then keys else keys + [k])[..|keys|];
      r
  }

  /** Pairs whose keys `ks` are normalised, distinct and not yet listed are
      all appended, in their own order. */
  lemma {:induction false} KeysAfterFresh(keys: seq<Obj>, ks: seq<Obj>, ps: seq<(Obj, Obj)>)
    requires |ps| == |ks| && forall i :: 0 <= i < |ps| ==> ps[i].0 == ks[i]
    requires Distinct(ks) && forall k :: k in ks ==> IsNormal(k) && k !in keys
    ensures KeysAfter(keys, ps) == keys + ks
    decreases |ps|
  {
    if ps != [] {
      var next := keys + [ks[0]];
      assert KeysAfter(keys, ps) == KeysAfter(next, ps[1..]) by {
        assert ConvertKey(ps[0].0) == ks[0] && ks[0] !in keys;
      }
      assert KeysAfter(next, ps[1..]) == next + ks[1..] by {
        forall k | k in ks[1..]
          ensures IsNormal(k) && k !in next
        {
          var j :| 0 <= j < |ks[1..]| && ks[1..][j] == k;
          assert ks[j + 1] == k;
        }
        KeysAfterFresh(next, ks[1..], ps[1..]);
      }
      assert next + ks[1..] == keys + ks;
    }
  }

  /** Writing a non-empty list of pairs is writing its first pair, then the
      rest. */
  lemma KeysAfterFirst(keys: seq<Obj>, ps: seq<(Obj, Obj)>)
    requires ps != []
    ensures KeysAfter(keys, ps) == KeysAfter(KeysAfter(keys, [ps[0]]), ps[1..])
  {
    assert [ps[0]][1..] == [];
  }

  /** One pair of `update`: the value is written, then the key is marked
      cast if the source is a CastedHash in which it is cast, and otherwise
      forgets any earlier cast mark. */
  function UpdateOne(h: CastedHash, key: Obj, value: Obj, src: Source): (r: CastedHash)
    ensures Read(r.table, ConvertKey(key)) == value
    ensures ConvertKey(key) in r.casted <==> SourceMarks(src, key)
    ensures forall x :: x != ConvertKey(key) ==> Read(r.table, x) == Read(h.table, x)
    ensures forall x :: x != ConvertKey(key) ==> (x in r.casted <==> x in h.casted)
    ensures r.table.vals.Keys == h.table.vals.Keys + {ConvertKey(key)}
    ensures |h.table.keys| <= |r.table.keys| && r.table.keys[..|h.table.keys|] == h.table.keys
    ensures Valid(h.table) ==> Valid(r.table) && r.table.keys == KeysAfter(h.table.keys, [(key, value)])
    ensures r.casting == h.casting && r.proc == h.proc
    ensures WellFormed(h) ==> WellFormed(r)
  {
    var written := h.(table := Put(h.table, ConvertKey(key), value));
    if SourceMarks(src, key) then MarkCasted(written, [key])
    else if IsCasted(written, key) then Uncast(written, ConvertKey(key))
    else written
  }

  /** The loop of `update` over the pairs of its argument, in order. */
  function UpdatePairs(h: CastedHash, ps: seq<(Obj, Obj)>, src: Source): (r: CastedHash)
    ensures r.table.vals.Keys == h.table.vals.Keys + WrittenKeys(ps)
    ensures forall x :: x !in WrittenKeys(ps) ==> Read(r.table, x) == Read(h.table, x)
    ensures forall x :: x !in WrittenKeys(ps) ==> (x in r.casted <==> x in h.casted)
    ensures src.PlainSource? ==> r.casted == h.casted - WrittenKeys(ps)
    ensures |h.table.keys| <= |r.table.keys| && r.table.keys[..|h.table.keys|] == h.table.keys
    ensures r.casting == h.casting && r.proc == h.proc
    ensures WellFormed(h) ==> WellFormed(r)
    decreases |ps|
  {
    if ps == [] then h
    else
      var first := UpdateOne(h, ps[0].0, ps[0].1, src);
      var r := UpdatePairs(first, ps[1..], src);
      WrittenKeysFirst(ps);
      assert r.table.keys[..|h.table.keys|] == first.table.keys[..|h.table.keys|];
      r
  }

  /** The `update` loop keeps the receiver's keys in place and appends each
      new normalised key where the argument first writes it. */
  lemma {:induction false} UpdatePairsKeyOrder(h: CastedHash, ps: seq<(Obj, Obj)>, src: Source)
    requires Valid(h.table)
    ensures UpdatePairs(h, ps, src).table.keys == KeysAfter(h.table.keys, ps)
    decreases |ps|
  {
    if ps != [] {
      var first := UpdateOne(h, ps[0].0, ps[0].1, src);
      UpdatePairsKeyOrder(first, ps[1..], src);
      KeysAfterFirst(h.table.keys, ps);
    }
  }

  /** `update` and `merge!`: nothing happens for an empty argument;
      otherwise every pair is written in the argument's order. */
  function Update(h: CastedHash, src: Source): (r: CastedHash)
    ensures |SourceTable(src).keys| == 0 ==> r == h
    ensures r.table.vals.Keys == h.table.vals.Keys + WrittenKeys(Pairs(SourceTable(src)))
    ensures forall x :: x !in WrittenKeys(Pairs(SourceTable(src))) ==>
              Read(r.table, x) == Read(h.table, x) && (x in r.casted <==> x in h.casted)
    ensures src.PlainSource? ==> r.casted == h.casted - WrittenKeys(Pairs(SourceTable(src)))
    ensures |h.table.keys| <= |r.table.keys| && r.table.keys[..|h.table.keys|] == h.table.keys
    ensures Valid(h.table) ==> r.table.keys == KeysAfter(h.table.keys, Pairs(SourceTable(src)))
    ensures r.casting == h.casting && r.proc == h.proc
    ensures WellFormed(h) ==> WellFormed(r)
  {
    if |SourceTable(src).keys| == 0 then h
    else
      assert Valid(h.table) ==> UpdatePairs(h, Pairs(SourceTable(src)), src).table.keys == KeysAfter(h.table.keys, Pairs(SourceTable(src))) by {
        if Valid(h.table) {
          UpdatePairsKeyOrder(h, Pairs(SourceTable(src)), src);
        }
      }
      UpdatePairs(h, Pairs(SourceTable(src)), src)
  }

  /** The constructor. It raises without a cast proc. From a plain Hash it
      starts empty and runs `update`; from a CastedHash it copies the cast
      keys and the table and starts with no key being cast. */
  function New(src: Source, proc: Option<CastProc>): (r: Result<CastedHash, Error>)
    ensures proc.None? <==> r == Failure(ArgumentError)
    ensures r.Success? ==> r.value.casting == {} && r.value.proc == proc.value
    ensures r.Success? && src.PlainSource? ==> r.value.casted == {}
    ensures r.Success? && src.PlainSource? ==> r.value.table.vals.Keys == WrittenKeys(Pairs(src.hash))
    ensures r.Success? && src.PlainSource? ==> r.value.table.keys == KeysAfter([], Pairs(src.hash))
    ensures r.Success? && src.CastedSource? && WellFormed(src.other) ==>
              r.value.table == src.other.table && r.value.casted == src.other.casted
    ensures r.Success? && (src.PlainSource? || WellFormed(src.other)) ==> WellFormed(r.value)
  {
    if proc.None? then Failure(ArgumentError)
    else
      match src
      case CastedSource(other) =>
        assert WellFormed(other) ==> CopyKeys(other.table, other.table.keys) == other.table by {
          if WellFormed(other) {
            CopyIsIdentity(other.table);
          }
        }
        Success(CastedHash(CopyKeys(other.table, other.table.keys), other.casted, {}, proc.value))
      case PlainSource(hash) =>
        var empty := CastedHash(Empty, {}, {}, proc.value);
        assert WellFormed(empty);
        Success(Update(empty, src))
  }

  /** `dup`: a new CastedHash built from this one with the same cast proc. */
  function Dup(h: CastedHash): (r: CastedHash)
    ensures r.casting == {} && r.proc == h.proc && r.casted == h.casted
    ensures WellFormed(h) ==> r.table == h.table && WellFormed(r)
  {
    New(CastedSource(h), Some(h.proc)).value
  }

  /** `merge`: `update` applied to a copy. */
  function Merge(h: CastedHash, src: Source): (r: CastedHash)
    ensures r.casting == {} && r.proc == h.proc
    ensures WellFormed(h) ==> r.table.vals.Keys == h.table.vals.Keys + WrittenKeys(Pairs(SourceTable(src)))
    ensures WellFormed(h) ==> forall x :: x !in WrittenKeys(Pairs(SourceTable(src))) ==>
              Read(r.table, x) == Read(h.table, x) && (x in r.casted <==> x in h.casted)
    ensures WellFormed(h) && src.PlainSource? ==> r.casted == h.casted - WrittenKeys(Pairs(SourceTable(src)))
    ensures WellFormed(h) ==> r.table.keys == KeysAfter(h.table.keys, Pairs(SourceTable(src)))
    ensures WellFormed(h) ==> WellFormed(r)
  {
    Update(Dup(h), src)
  }

  /** `v` is what a successful read of the stored key `k` gives in `h`: its
      stored value when it is cast, else the proc's result on the raw value. */
  predicate IsCastValue(h: CastedHash, k: Obj, v: Obj)
    requires Has(h.table, k)
  {
    if k in h.casted then v == h.table.vals[k] else CallProc(h, k, h.table.vals[k]) == Success(v)
  }

  /** What a run of casts does to the hash: the keys, their order and the
      proc stay, no mark is lost and no key starts being cast, keys still
      uncast keep their raw values, cast values stay as they were, and each
      newly cast key holds the proc's result on its raw value. */
  ghost predicate CastsOnly(h: CastedHash, s: CastedHash) {
    && s.proc == h.proc
    && s.table.keys == h.table.keys && s.table.vals.Keys == h.table.vals.Keys
    && s.casting <= h.casting && h.casted <= s.casted
    && (forall x :: x in h.casted ==> Read(s.table, x) == Read(h.table, x))
    && (forall x :: x !in s.casted ==> Read(s.table, x) == Read(h.table, x))
    && (forall x :: x in s.casted && x !in h.casted ==>
          Has(h.table, x) && CallProc(h, x, h.table.vals[x]) == Success(Read(s.table, x)))
  }

  /** A single `cast!` is a run of casts. */
  lemma CastIsCastsOnly(h: CastedHash, key: Obj)
    requires IsNormal(key)
    ensures CastsOnly(h, Cast(h, key).state)
  {
  }

  /** Two runs of casts in a row are one run of casts. */
  lemma CastsOnlyTrans(a: CastedHash, b: CastedHash, c: CastedHash)
    requires CastsOnly(a, b) && CastsOnly(b, c)
    ensures CastsOnly(a, c)
  {
    forall x | x in c.casted && x !in a.casted
      ensures Has(a.table, x) && CallProc(a, x, a.table.vals[x]) == Success(Read(c.table, x))
    {
      if x !in b.casted {
        assert Read(b.table, x) == Read(a.table, x);
      }
    }
  }

  /** A read that raises nothing still raises nothing after a run of casts. */
  lemma CastsOnlyKeepsReadSucceeds(a: CastedHash, b: CastedHash, k: Obj)
    requires CastsOnly(a, b) && ReadSucceeds(a, k)
    ensures ReadSucceeds(b, k)
  {
    if Has(b.table, k) && k !in b.casted {
      assert Read(b.table, k) == Read(a.table, k);
    }
  }

  /** A read that raises nothing after a successful `cast!` of some key
      raised nothing before it either: that cast touched only its own key,
      and that key's own read is the one that just succeeded. */
  lemma CastKeepsReadSucceedsBack(h: CastedHash, key: Obj, k: Obj)
    requires IsNormal(key) && Cast(h, key).result.Success?
    requires ReadSucceeds(Cast(h, key).state, k)
    ensures ReadSucceeds(h, k)
  {
    if k != key && Has(h.table, k) && k !in h.casted {
      assert Read(Cast(h, key).state.table, k) == Read(h.table, k);
    }
  }

  /** After a run of casts, a stored key that is now cast holds the value a
      read of it would have given before the run. */
  lemma CastValueAfter(h: CastedHash, s: CastedHash, k: Obj)
    requires CastsOnly(h, s) && Has(h.table, k) && k in s.casted
    ensures IsCastValue(h, k, Read(s.table, k))
  {
  }

  /** After a successful first cast of the `cast_all!` loop, the rest of the
      keys raise nothing iff they raised nothing before it. */
  lemma CastKeysRestSucceeds(h: CastedHash, ks: seq<Obj>)
    requires ks != [] && IsNormal(ks[0]) && Cast(h, ks[0]).result.Success?
    ensures (forall k :: k in ks ==> ReadSucceeds(h, k)) <==>
              forall k :: k in ks[1..] ==> ReadSucceeds(Cast(h, ks[0]).state, k)
  {
    CastIsCastsOnly(h, ks[0]);
    forall k | k in ks[1..] && ReadSucceeds(h, k) {
      CastsOnlyKeepsReadSucceeds(h, Cast(h, ks[0]).state, k);
    }
    forall k | k in ks[1..] && ReadSucceeds(Cast(h, ks[0]).state, k) {
      CastKeepsReadSucceedsBack(h, ks[0], k);
    }
    assert ks == [ks[0]] + ks[1..];
  }

  /** The loop of `cast_all!` over a snapshot of the keys. It stops at the
      first cast that raises. */
  function CastKeys(h: CastedHash, ks: seq<Obj>): (o: Step<()>)
    requires forall k :: k in ks ==> IsNormal(k)
    ensures o.state.proc == h.proc
    ensures o.state.table.keys == h.table.keys && o.state.table.vals.Keys == h.table.vals.Keys
    ensures o.state.casting <= h.casting
    ensures h.casted <= o.state.casted
    ensures forall x :: x in h.casted ==> Read(o.state.table, x) == Read(h.table, x)
    ensures forall x :: x !in o.state.casted ==> Read(o.state.table, x) == Read(h.table, x)
    ensures forall x :: x !in ks ==> Read(o.state.table, x) == Read(h.table, x)
    ensures forall x :: x !in ks ==> (x in o.state.casted <==> x in h.casted)
    ensures o.result.Success? ==> forall k :: k in ks && Has(h.table, k) ==> k in o.state.casted
    ensures forall x :: x in o.state.casted && x !in h.casted ==>
              Has(h.table, x) && CallProc(h, x, h.table.vals[x]) == Success(Read(o.state.table, x))
    ensures o.result.Success? ==> forall k :: k in ks && Has(h.table, k) && k !in h.casted ==>
              CallProc(h, k, h.table.vals[k]) == Success(Read(o.state.table, k))
    ensures (forall k :: k in ks ==> ReadSucceeds(h, k)) <==> o.result.Success?
    ensures WellFormed(h) ==> WellFormed(o.state)
    decreases |ks|
  {
    if ks == [] then Step(h, Success(()))
    else
      var first := Cast(h, ks[0]);
      if first.result.Failure? then Step(first.state, Failure(first.result.error))
      else
        CastKeysRestSucceeds(h, ks);
        CastKeys(first.state, ks[1..])
  }

  /** `cast_all!`: casts every stored key, in order. */
  function CastAll(h: CastedHash): (o: Step<()>)
    requires WellFormed(h)
    ensures CastsOnly(h, o.state)
    ensures (forall k :: k in h.table.vals ==> ReadSucceeds(h, k)) <==> o.result.Success?
    ensures o.result.Success? ==> o.state.casted == o.state.table.vals.Keys
    ensures o.result.Success? ==> forall k :: k in h.table.vals ==> IsCastValue(h, k, Read(o.state.table, k))
    ensures WellFormed(o.state)
  {
    CastKeys(h, h.table.keys)
  }

  /** `values`: every key is cast first, then the values in key order. */
  function Values(h: CastedHash): (o: Step<seq<Obj>>)
    requires WellFormed(h)
    ensures o.result.Success? ==>
              && o.state.casted == o.state.table.vals.Keys
              && |o.result.value| == |h.table.keys|
              && forall i :: 0 <= i < |h.table.keys| ==> o.result.value[i] == Read(o.state.table, h.table.keys[i])
    ensures o.result.Success? ==>
              forall i :: 0 <= i < |h.table.keys| ==> IsCastValue(h, h.table.keys[i], o.result.value[i])
    ensures CastsOnly(h, o.state)
    ensures (forall k :: k in h.table.vals ==> ReadSucceeds(h, k)) <==> o.result.Success?
    ensures WellFormed(o.state)
  {
    var all := CastAll(h);
    if all.result.Failure? then Step(all.state, Failure(all.result.error))
    else Step(all.state, Success(RubyHash.Values(all.state.table)))
  }

  /** `each`: every key is cast first, then the pairs in key order. */
  function Each(h: CastedHash): (o: Step<seq<(Obj, Obj)>>)
    requires WellFormed(h)
    ensures o.result.Success? ==>
              && o.state.casted == o.state.table.vals.Keys
              && |o.result.value| == |h.table.keys|
              && forall i :: 0 <= i < |h.table.keys| ==>
                   o.result.value[i] == (h.table.keys[i], Read(o.state.table, h.table.keys[i]))
    ensures o.result.Success? ==>
              forall i :: 0 <= i < |h.table.keys| ==> IsCastValue(h, h.table.keys[i], o.result.value[i].1)
    ensures CastsOnly(h, o.state)
    ensures (forall k :: k in h.table.vals ==> ReadSucceeds(h, k)) <==> o.result.Success?
    ensures WellFormed(o.state)
  {
    var all := CastAll(h);
    if all.result.Failure? then Step(all.state, Failure(all.result.error))
    else Step(all.state, Success(Pairs(all.state.table)))
  }

  /** `casted_hash`: casts every key and returns the hash itself. */
  function CastedHashOf(h: CastedHash): (o: Step<CastedHash>)
    requires WellFormed(h)
    ensures o.result.Success? ==> o.result.value == o.state && o.state.casted == o.state.table.vals.Keys
    ensures o.result.Success? ==>
              forall k :: k in h.table.vals ==> IsCastValue(h, k, Read(o.result.value.table, k))
    ensures CastsOnly(h, o.state)
    ensures (forall k :: k in h.table.vals ==> ReadSucceeds(h, k)) <==> o.result.Success?
    ensures WellFormed(o.state)
  {
    var all := CastAll(h);
    if all.result.Failure? then Step(all.state, Failure(all.result.error))
    else Step(all.state, Success(all.state))
  }

  /** The results of `values_at` for a non-empty key list: the first read
      leaves state `f` and value `v0`, the rest leave state `r` and values
      `vs`, and together they give each key's current value and cast value. */
  lemma ValuesAtCons(h: CastedHash, ks: seq<Obj>, f: CastedHash, v0: Obj, r: CastedHash, vs: seq<Obj>)
    requires ks != [] && CastsOnly(h, f) && CastsOnly(f, r)
    requires v0 == Read(f.table, ConvertKey(ks[0])) && (HasKey(h, ks[0]) ==> IsCasted(f, ks[0]))
    requires |vs| == |ks[1..]|
    requires forall i :: 0 <= i < |ks[1..]| ==> vs[i] == Read(r.table, ConvertKey(ks[1..][i]))
    requires forall i :: 0 <= i < |ks[1..]| && HasKey(f, ks[1..][i]) ==> IsCasted(r, ks[1..][i])
    ensures CastsOnly(h, r)
    ensures forall i :: 0 <= i < |ks| ==> ([v0] + vs)[i] == Read(r.table, ConvertKey(ks[i]))
    ensures forall i :: 0 <= i < |ks| && HasKey(h, ks[i]) ==> IsCasted(r, ks[i])
    ensures forall i :: 0 <= i < |ks| ==>
              if HasKey(h, ks[i]) then IsCastValue(h, ConvertKey(ks[i]), ([v0] + vs)[i]) else ([v0] + vs)[i] == Nil
  {
    CastsOnlyTrans(h, f, r);
    var all := [v0] + vs;
    assert forall i :: 1 <= i < |ks| ==> ks[i] == ks[1..][i - 1] && all[i] == vs[i - 1];
    forall i | 0 <= i < |ks| && HasKey(h, ks[i])
      ensures IsCastValue(h, ConvertKey(ks[i]), all[i])
    {
      CastValueAfter(h, r, ConvertKey(ks[i]));
    }
  }

  /** `ks[j]` is the first key of `ks` whose read, normalised, raises. */
  predicate FirstRaisingAt(h: CastedHash, ks: seq<Obj>, j: int) {
    && 0 <= j < |ks|
    && !ReadSucceeds(h, ConvertKey(ks[j]))
    && forall i :: 0 <= i < j ==> ReadSucceeds(h, ConvertKey(ks[i]))
  }

  /** After a successful first read of a `values_at`, the rest of the keys
      raise nothing iff they raised nothing before it. */
  lemma ValuesAtRestSucceeds(h: CastedHash, ks: seq<Obj>)
    requires ks != [] && Get(h, ks[0]).result.Success?
    ensures (forall i :: 0 <= i < |ks| ==> ReadSucceeds(h, ConvertKey(ks[i]))) <==>
              forall i :: 0 <= i < |ks[1..]| ==> ReadSucceeds(Get(h, ks[0]).state, ConvertKey(ks[1..][i]))
  {
    var f := Get(h, ks[0]).state;
    CastIsCastsOnly(h, ConvertKey(ks[0]));
    forall i | 0 <= i < |ks[1..]| && ReadSucceeds(h, ConvertKey(ks[1..][i])) {
      CastsOnlyKeepsReadSucceeds(h, f, ConvertKey(ks[1..][i]));
    }
    forall i | 0 <= i < |ks[1..]| && ReadSucceeds(f, ConvertKey(ks[1..][i])) {
      CastKeepsReadSucceedsBack(h, ConvertKey(ks[0]), ConvertKey(ks[1..][i]));
    }
    assert forall i :: 1 <= i < |ks| ==> ks[i] == ks[1..][i - 1];
  }

  /** The state a failed `values_at` leaves when its first read succeeded
      and a later read raised, leaving state `r`: the read that raised is
      the first of the list that would, and every stored key read before it
      is cast. */
  lemma ValuesAtFailure(h: CastedHash, ks: seq<Obj>, r: CastedHash)
    requires ks != [] && Get(h, ks[0]).result.Success?
    requires CastsOnly(Get(h, ks[0]).state, r)
    requires exists j :: FirstRaisingAt(Get(h, ks[0]).state, ks[1..], j) &&
               forall i :: 0 <= i < j && HasKey(Get(h, ks[0]).state, ks[1..][i]) ==> IsCasted(r, ks[1..][i])
    ensures exists j :: FirstRaisingAt(h, ks, j) &&
              forall i :: 0 <= i < j && HasKey(h, ks[i]) ==> IsCasted(r, ks[i])
  {
    var f := Get(h, ks[0]).state;
    var j :| FirstRaisingAt(f, ks[1..], j) &&
             forall i :: 0 <= i < j && HasKey(f, ks[1..][i]) ==> IsCasted(r, ks[1..][i]);
    CastIsCastsOnly(h, ConvertKey(ks[0]));
    assert forall i :: 1 <= i < |ks| ==> ks[i] == ks[1..][i - 1];
    assert !ReadSucceeds(h, ConvertKey(ks[j + 1])) by {
      if ReadSucceeds(h, ConvertKey(ks[j + 1])) {
        CastsOnlyKeepsReadSucceeds(h, f, ConvertKey(ks[1..][j]));
      }
    }
    forall i | 1 <= i < j + 1
      ensures ReadSucceeds(h, ConvertKey(ks[i]))
    {
      CastKeepsReadSucceedsBack(h, ConvertKey(ks[0]), ConvertKey(ks[1..][i - 1]));
    }
    assert FirstRaisingAt(h, ks, j + 1);
  }

  /** `values_at`: `[]` of each key in turn; the first error stops the call. */
  function ValuesAt(h: CastedHash, ks: seq<Obj>): (o: Step<seq<Obj>>)
    ensures CastsOnly(h, o.state)
    ensures (forall i :: 0 <= i < |ks| ==> ReadSucceeds(h, ConvertKey(ks[i]))) <==> o.result.Success?
    ensures o.result.Failure? ==>
              exists j :: FirstRaisingAt(h, ks, j) &&
                forall i :: 0 <= i < j && HasKey(h, ks[i]) ==> IsCasted(o.state, ks[i])
    ensures o.result.Success? ==>
              && |o.result.value| == |ks|
              && forall i :: 0 <= i < |ks| ==> o.result.value[i] == Read(o.state.table, ConvertKey(ks[i]))
    ensures o.result.Success? ==> forall i :: 0 <= i < |ks| && HasKey(h, ks[i]) ==> IsCasted(o.state, ks[i])
    ensures o.result.Success? ==> forall i :: 0 <= i < |ks| ==>
              if HasKey(h, ks[i]) then IsCastValue(h, ConvertKey(ks[i]), o.result.value[i]) else o.result.value[i] == Nil
    ensures WellFormed(h) ==> WellFormed(o.state)
    decreases |ks|
  {
    if ks == [] then Step(h, Success([]))
    else
      var first := Get(h, ks[0]);
      assert CastsOnly(h, first.state) by {
        CastIsCastsOnly(h, ConvertKey(ks[0]));
      }
      if first.result.Failure? then
        assert FirstRaisingAt(h, ks, 0);
        Step(first.state, Failure(first.result.error))
      else
        var rest := ValuesAt(first.state, ks[1..]);
        ValuesAtRestSucceeds(h, ks);
        if rest.result.Failure? then
          CastsOnlyTrans(h, first.state, rest.state);
          ValuesAtFailure(h, ks, rest.state);
          rest
        else
          ValuesAtCons(h, ks, first.state, first.result.value, rest.state, rest.result.value);
          Step(rest.state, Success([first.result.value] + rest.result.value))
  }

  /** `to_hash`: a plain Hash with every stored key and its current value,
      raw or cast; nothing is cast. */
  function ToHash(h: CastedHash): (r: Hash)
    ensures WellFormed(h) ==> r == h.table
  {
    assert WellFormed(h) ==> CopyKeys(h.table, h.table.keys) == h.table by {
      if WellFormed(h) {
        CopyIsIdentity(h.table);
      }
    }
    CopyKeys(h.table, h.table.keys)
  }

  /** `casted`: the cast keys with their stored values; nothing is cast. The
      order of this Hash, the order in which the keys were cast, is not
      modelled. */
  function CastedView(h: CastedHash): (r: map<Obj, Obj>)
    ensures r.Keys == h.casted
    ensures forall k :: k in r ==> r[k] == Read(h.table, k)
  {
    map k | k in h.casted :: Read(h.table, k)
  }

  /** The loop of `transform_keys`: `result[f(key)] = self[key]` for each key
      of `src`, reading the raw-or-cast value without casting it. No key is
      cast along the way, every renamed key is stored and uncast at the end,
      and no key is dropped. */
  function RewriteKeys(src: CastedHash, acc: CastedHash, ks: seq<Obj>, f: Obj -> Obj): (r: CastedHash)
    ensures r.casted <= acc.casted
    ensures acc.table.vals.Keys <= r.table.vals.Keys
    ensures forall k :: k in ks ==> HasKey(r, f(k)) && !IsCasted(r, f(k))
    ensures r.casting == acc.casting && r.proc == acc.proc
    decreases |ks|
  {
    if ks == [] then acc
    else RewriteKeys(src, Set(acc, f(ks[0]), Read(src.table, ks[0])), ks[1..], f)
  }

  /** The pairs `transform_keys` writes: each renamed key with the value
      stored under the original key. */
  function Renamed(src: CastedHash, ks: seq<Obj>, f: Obj -> Obj): (ps: seq<(Obj, Obj)>)
    ensures |ps| == |ks|
    ensures forall i :: 0 <= i < |ks| ==> ps[i] == (f(ks[i]), Read(src.table, ks[i]))
  {
    seq(|ks|, i requires 0 <= i < |ks| => (f(ks[i]), Read(src.table, ks[i])))
  }

  /** `[]=` is one step of `update` from a plain Hash. */
  lemma SetIsPlainUpdate(h: CastedHash, k: Obj, v: Obj, plain: Hash)
    ensures Set(h, k, v) == UpdateOne(h, k, v, PlainSource(plain))
  {
  }

  /** The loop of `transform_keys` is `update` with the renamed pairs. */
  lemma {:induction false} RewriteKeysIsUpdate(src: CastedHash, acc: CastedHash, ks: seq<Obj>, f: Obj -> Obj)
    ensures RewriteKeys(src, acc, ks, f) == UpdatePairs(acc, Renamed(src, ks, f), PlainSource(Empty))
    decreases |ks|
  {
    if ks != [] {
      var ps := Renamed(src, ks, f);
      var plain := PlainSource(Empty);
      var next := Set(acc, f(ks[0]), Read(src.table, ks[0]));
      assert ps[0] == (f(ks[0]), Read(src.table, ks[0]));
      assert next == UpdateOne(acc, ps[0].0, ps[0].1, plain) by {
        SetIsPlainUpdate(acc, f(ks[0]), Read(src.table, ks[0]), Empty);
      }
      calc {
        RewriteKeys(src, acc, ks, f);
        RewriteKeys(src, next, ks[1..], f);
        { RewriteKeysIsUpdate(src, next, ks[1..], f);
          assert Renamed(src, ks[1..], f) == ps[1..]; }
        UpdatePairs(next, ps[1..], plain);
        UpdatePairs(acc, ps, plain);
      }
    }
  }

  /** `transform_keys` with a block: a copy of the hash in which every
      `f(key)` is written, through `[]=`, with the value of `key`. The
      original keys stay, every renamed key ends uncast, and keys that no
      renamed key hits keep their value and cast state. */
  function TransformKeys(h: CastedHash, f: Obj -> Obj): (r: CastedHash)
    ensures r == UpdatePairs(Dup(h), Renamed(h, h.table.keys, f), PlainSource(Empty))
    ensures r.casting == {} && r.proc == h.proc
    ensures forall k :: k in h.table.keys ==> HasKey(r, f(k)) && !IsCasted(r, f(k))
    ensures WellFormed(h) ==> h.table.vals.Keys <= r.table.vals.Keys
    ensures WellFormed(h) ==> forall x :: x !in WrittenKeys(Renamed(h, h.table.keys, f)) ==>
              Read(r.table, x) == Read(h.table, x) && (x in r.casted <==> x in h.casted)
    ensures WellFormed(h) ==> WellFormed(r)
  {
    RewriteKeysIsUpdate(h, Dup(h), h.table.keys, f);
    var ps := Renamed(h, h.table.keys, f);
    assert forall k :: k in h.table.keys ==> ConvertKey(f(k)) in WrittenKeys(ps) by {
      forall k | k in h.table.keys
        ensures ConvertKey(f(k)) in WrittenKeys(ps)
      {
        var i := IndexOf(h.table.keys, k);
        assert ps[i].0 == f(k);
      }
    }
    RewriteKeys(h, Dup(h), h.table.keys, f)
  }
}

=== FILE: casted_hash_lemmas.dfy ===
/** Properties of the CastedHash model that relate several calls: key
    normalisation, memoisation, re-entrancy, invalidation, cast-state
    propagation through `update`, `merge`, `dup` and `transform_keys`, and
    the snapshots. */
module CastedHashLemmas {
  import opened Wrappers
  import opened Objects
  import opened RubyHash
  import opened CastedHashes

  /** `:a` and `"a"` are the same entry for every operation that takes a key. */
  lemma SymbolAndStringAreOneKey(h: CastedHash, name: string, v: Obj, default: Option<Obj>)
    ensures HasKey(h, Sym(name)) == HasKey(h, Str(name))
    ensures IsCasted(h, Sym(name)) == IsCasted(h, Str(name))
    ensures IsCasting(h, Sym(name)) == IsCasting(h, Str(name))
    ensures Get(h, Sym(name)) == Get(h, Str(name))
    ensures Fetch(h, Sym(name), default) == Fetch(h, Str(name), default)
    ensures Set(h, Sym(name), v) == Set(h, Str(name), v)
    ensures Delete(h, Sym(name)) == Delete(h, Str(name))
  {
  }

  /** Reading an absent key returns nil and leaves the hash as it was. */
  lemma CastAbsentChangesNothing(h: CastedHash, key: Obj)
    requires IsNormal(key) && !Has(h.table, key) && key !in h.casting
    ensures Cast(h, key) == Step(h, Success(Nil))
  {
  }

  /** Reading a cast key does not involve the cast proc: any other proc
      gives the same answer. */
  lemma CastedReadSkipsProc(h: CastedHash, key: Obj, other: CastProc)
    requires IsNormal(key) && Has(h.table, key) && key in h.casted
    ensures Cast(h.(proc := other), key).result == Cast(h, key).result == Success(h.table.vals[key])
  {
  }

  /** A read of a key from inside its own cast (the proc reading the key it
      is casting) raises `SystemStackError` instead of recursing, and the
      `ensure` clause takes the key out of the casting set. */
  lemma ReentrantCastRaises(h: CastedHash, k: Obj)
    requires HasKey(h, k) && !IsCasted(h, k)
    ensures Get(InFlight(h, ConvertKey(k)), k).result == Failure(SystemStackError(ConvertKey(k)))
    ensures !IsCasting(Get(InFlight(h, ConvertKey(k)), k).state, k)
  {
    var key := ConvertKey(k);
    assert ConvertKey(key) == key;
    assert IsCasting(InFlight(h, key), key);
  }

  /** Memoisation: once a read succeeds, reading the same key again returns
      the same value and changes nothing, so the proc runs at most once. */
  lemma GetMemoizes(h: CastedHash, k: Obj)
    requires Get(h, k).result.Success?
    ensures Get(Get(h, k).state, k) == Get(h, k)
  {
    var key := ConvertKey(k);
    var o := Get(h, k);
    assert o == Cast(h, key);
    if Has(h.table, key) {
      assert key in o.state.casted;
    }
  }

  /** A read of a key that is neither cast nor being cast calls the proc on
      the stored raw value with the arguments its arity asks for, and the
      key is cast afterwards. */
  lemma FirstGetCallsProc(h: CastedHash, k: Obj)
    requires HasKey(h, k) && !IsCasted(h, k) && !IsCasting(h, k)
    ensures var called := CallProc(h, ConvertKey(k), Read(h.table, ConvertKey(k)));
            && (called.Success? ==> Get(h, k).result == Success(called.value) && IsCasted(Get(h, k).state, k))
            && (called.Failure? ==> Get(h, k).result == Failure(ProcRaised(called.error)) && !IsCasted(Get(h, k).state, k))
  {
  }

  /** Invalidation: after `[]=` the key is not cast, even if it was before,
      and the next read casts the new raw value. */
  lemma SetInvalidates(h: CastedHash, k: Obj, v: Obj)
    requires !IsCasting(h, k)
    ensures !IsCasted(Set(h, k, v), k)
    ensures var called := CallProc(h, ConvertKey(k), v);
            called.Success? ==> Get(Set(h, k, v), k).result == Success(called.value)
  {
    FirstGetCallsProc(Set(h, k, v), k);
  }

  /** After `delete` the key reads as nil and is not cast. */
  lemma DeleteThenGet(h: CastedHash, k: Obj)
    ensures Get(Delete(h, k).0, k).result == Success(Nil)
    ensures !IsCasted(Delete(h, k).0, k)
  {
  }

  /** The pair at position `i` is the last one that writes its key. */
  ghost predicate LastWrite(ps: seq<(Obj, Obj)>, i: int)
    requires 0 <= i < |ps|
  {
    forall j :: i < j < |ps| ==> ConvertKey(ps[j].0) != ConvertKey(ps[i].0)
  }

  /** In `update`, the last pair that writes a key decides its value, and
      the key ends cast exactly when that pair came cast from a CastedHash. */
  lemma {:induction false} UpdateLastWriteWins(h: CastedHash, ps: seq<(Obj, Obj)>, src: Source, i: int)
    requires 0 <= i < |ps| && LastWrite(ps, i)
    ensures Read(UpdatePairs(h, ps, src).table, ConvertKey(ps[i].0)) == ps[i].1
    ensures ConvertKey(ps[i].0) in UpdatePairs(h, ps, src).casted <==> SourceMarks(src, ps[i].0)
    decreases |ps|
  {
    var first := UpdateOne(h, ps[0].0, ps[0].1, src);
    var key := ConvertKey(ps[i].0);
    if i == 0 {
      assert key !in WrittenKeys(ps[1..]);
    } else {
      assert ps[1..][i - 1] == ps[i];
      assert LastWrite(ps[1..], i - 1) by {
        forall j | i - 1 < j < |ps[1..]|
          ensures ConvertKey(ps[1..][j].0) != key
        {
          assert ps[1..][j] == ps[j + 1];
        }
      }
      UpdateLastWriteWins(first, ps[1..], src, i - 1);
    }
  }

  /** Cast-state propagation: updating from a CastedHash copies each of its
      entries as it is, raw or cast, and each copied key is cast exactly
      when it is cast in the argument. */
  lemma UpdateFromCastedHash(h: CastedHash, other: CastedHash, k: Obj)
    requires WellFormed(other) && k in other.table.vals
    ensures Read(Update(h, CastedSource(other)).table, k) == other.table.vals[k]
    ensures k in Update(h, CastedSource(other)).casted <==> k in other.casted
  {
    var ps := Pairs(other.table);
    var i := IndexOf(other.table.keys, k);
    assert ps[i] == (k, other.table.vals[k]);
    assert LastWrite(ps, i) by {
      forall j | i < j < |ps|
        ensures ConvertKey(ps[j].0) != ConvertKey(ps[i].0)
      {
        assert ps[j].0 == other.table.keys[j];
      }
    }
    UpdateLastWriteWins(h, ps, CastedSource(other), i);
  }

  /** Updating from a plain Hash leaves every key it writes uncast, and its
      last pair for a key decides the value. */
  lemma UpdateFromPlainHash(h: CastedHash, plain: Hash, i: int)
    requires 0 <= i < |plain.keys| && LastWrite(Pairs(plain), i)
    ensures Read(Update(h, PlainSource(plain)).table, ConvertKey(plain.keys[i])) == Read(plain, plain.keys[i])
    ensures !IsCasted(Update(h, PlainSource(plain)), plain.keys[i])
  {
    UpdateLastWriteWins(h, Pairs(plain), PlainSource(plain), i);
  }

  /** The constructor from a plain Hash stores each of its keys, normalised,
      with the value of its last pair, raw and uncast. */
  lemma NewFromPlainHash(plain: Hash, proc: CastProc, i: int)
    requires 0 <= i < |plain.keys| && LastWrite(Pairs(plain), i)
    ensures Read(New(PlainSource(plain), Some(proc)).value.table, ConvertKey(plain.keys[i])) == Read(plain, plain.keys[i])
    ensures !IsCasted(New(PlainSource(plain), Some(proc)).value, plain.keys[i])
  {
    UpdateFromPlainHash(CastedHash(Empty, {}, {}, proc), plain, i);
  }

  /** The keys are normalised already: the constructor lists them in their
      own order. */
  lemma NewFromPlainHashKeys(plain: Hash, proc: CastProc)
    requires Valid(plain) && forall k :: k in plain.vals ==> IsNormal(k)
    ensures New(PlainSource(plain), Some(proc)).value.table.keys == plain.keys
  {
    KeysAfterFresh([], plain.keys, Pairs(plain));
  }

  /** The keys a normalised hash writes are its own keys. */
  lemma WrittenKeysOfNormalHash(plain: Hash)
    requires Valid(plain) && forall k :: k in plain.vals ==> IsNormal(k)
    ensures WrittenKeys(Pairs(plain)) == plain.vals.Keys
  {
    var ps := Pairs(plain);
    forall k | k in plain.vals
      ensures k in WrittenKeys(ps)
    {
      var i := IndexOf(plain.keys, k);
      assert ConvertKey(ps[i].0) == k;
    }
  }

  /** The keys are normalised already: the constructor stores exactly them. */
  lemma NewFromPlainHashKeySet(plain: Hash, proc: CastProc)
    requires Valid(plain) && forall k :: k in plain.vals ==> IsNormal(k)
    ensures New(PlainSource(plain), Some(proc)).value.table.vals.Keys == plain.vals.Keys
  {
    WrittenKeysOfNormalHash(plain);
  }

  /** The keys are normalised and distinct: the constructor stores each with
      its own value. */
  lemma NewFromPlainHashValue(plain: Hash, proc: CastProc, k: Obj)
    requires Valid(plain) && forall k :: k in plain.vals ==> IsNormal(k)
    requires k in plain.vals
    ensures Read(New(PlainSource(plain), Some(proc)).value.table, k) == plain.vals[k]
  {
    var ps := Pairs(plain);
    var i := IndexOf(plain.keys, k);
    assert ConvertKey(k) == k && ps[i].0 == k;
    assert LastWrite(ps, i);
    NewFromPlainHash(plain, proc, i);
  }

  /** The constructor from a well-formed plain Hash whose keys are already
      normalised rebuilds that Hash: the same keys in the same order, each
      with its value. */
  lemma NewFromPlainHashRoundTrip(plain: Hash, proc: CastProc)
    requires Valid(plain) && forall k :: k in plain.vals ==> IsNormal(k)
    ensures New(PlainSource(plain), Some(proc)).value.table == plain
  {
    var t := New(PlainSource(plain), Some(proc)).value.table;
    NewFromPlainHashKeys(plain, proc);
    NewFromPlainHashKeySet(plain, proc);
    forall k | k in plain.vals
      ensures t.vals[k] == plain.vals[k]
    {
      NewFromPlainHashValue(plain, proc, k);
    }
    HashExtensionality(t, plain);
  }

  /** `merge` with a plain Hash: each written key gets the value of its last
      pair and loses any cast mark it had in the receiver. */
  lemma MergeFromPlainHash(h: CastedHash, plain: Hash, i: int)
    requires WellFormed(h) && 0 <= i < |plain.keys| && LastWrite(Pairs(plain), i)
    ensures Read(Merge(h, PlainSource(plain)).table, ConvertKey(plain.keys[i])) == Read(plain, plain.keys[i])
    ensures !IsCasted(Merge(h, PlainSource(plain)), plain.keys[i])
  {
    UpdateFromPlainHash(Dup(h), plain, i);
  }

  /** `merge` with a CastedHash: the copy takes the argument's entries and
      cast marks, while the receiver's other entries are kept as they are. */
  lemma MergeFromCastedHash(h: CastedHash, other: CastedHash, k: Obj)
    requires WellFormed(h) && WellFormed(other)
    ensures k in other.table.vals ==>
              && Read(Merge(h, CastedSource(other)).table, k) == other.table.vals[k]
              && (k in Merge(h, CastedSource(other)).casted <==> k in other.casted)
    ensures k !in other.table.vals && IsNormal(k) ==>
              && Read(Merge(h, CastedSource(other)).table, k) == Read(h.table, k)
              && (k in Merge(h, CastedSource(other)).casted <==> k in h.casted)
  {
    if k in other.table.vals {
      UpdateFromCastedHash(Dup(h), other, k);
    } else if IsNormal(k) {
      var ps := Pairs(other.table);
      assert k !in WrittenKeys(ps);
    }
  }

  /** `dup` and the constructor from a CastedHash agree, and the copy has
      the same entries, in the same order, and the same cast keys. */
  lemma DupCopiesState(h: CastedHash)
    requires WellFormed(h)
    ensures New(CastedSource(h), Some(h.proc)) == Success(Dup(h))
    ensures Dup(h) == h.(casting := {})
    ensures ToHash(Dup(h)) == ToHash(h)
  {
  }

  /** In `transform_keys`, the value under a renamed key is the value of the
      last original key renamed to it. */
  lemma TransformKeysLastWriteWins(h: CastedHash, f: Obj -> Obj, i: int)
    requires WellFormed(h) && 0 <= i < |h.table.keys|
    requires LastWrite(Renamed(h, h.table.keys, f), i)
    ensures Read(TransformKeys(h, f).table, ConvertKey(f(h.table.keys[i]))) == Read(h.table, h.table.keys[i])
  {
    UpdateLastWriteWins(Dup(h), Renamed(h, h.table.keys, f), PlainSource(Empty), i);
  }

  /** After a successful `cast_all!`, the `casted` snapshot and `to_hash`
      hold the same entries. */
  lemma CastAllMakesSnapshotsAgree(h: CastedHash)
    requires WellFormed(h) && CastAll(h).result.Success?
    ensures CastedView(CastAll(h).state) == ToHash(CastAll(h).state).vals
  {
  }

  /** `fetch` on a stored key whose value is nil returns that nil: it does
      not fall back to the default. */
  lemma FetchStoredNil(h: CastedHash, k: Obj, default: Option<Obj>)
    requires HasKey(h, k) && IsCasted(h, k) && Read(h.table, ConvertKey(k)) == Nil
    ensures Fetch(h, k, default).result == Success(Nil)
  {
  }
}

=== FILE: examples.dfy ===
/** Two worked runs of the model: a hash whose proc upcases strings, and a
    hash whose proc increments integers. */
module Examples {
  import opened Wrappers
  import opened Objects
  import opened RubyHash
  import opened CastedHashes

  /** `String#upcase` restricted to ASCII letters; Ruby's own also maps
      non-ASCII letters. */
  function Upcase(s: string): (r: string)
    ensures |r| == |s|
  {
    seq(|s|, i requires 0 <= i < |s| => if 'a' <= s[i] <= 'z' then (s[i] as int - 32) as char else s[i])
  }

  lemma UpcaseNames()
    ensures Upcase("ada") == "ADA"
    ensures Upcase("grace") == "GRACE"
  {
    var a := Upcase("ada");
    assert a[0] == 'A' && a[1] == 'D' && a[2] == 'A';
    var g := Upcase("grace");
    assert g[0] == 'G' && g[1] == 'R' && g[2] == 'A' && g[3] == 'C' && g[4] == 'E';
  }

  /** `->(v) { v.upcase }`: a one-argument proc that raises on non-strings. */
  function UpcaseCall(a: CastArgs): Result<Obj, string> {
    match a
    case RawArg(Str(s)) => Success(Str(Upcase(s)))
    case _ => Failure("undefined method `upcase'")
  }

  /** `->(v) { v + 1 }` on integers. */
  function IncrementCall(a: CastArgs): Result<Obj, string> {
    match a
    case RawArg(Int(i)) => Success(Int(i + 1))
    case _ => Failure("undefined method `+'")
  }

  /** The one-entry hash `{key => raw}` with a one-argument proc, nothing
      cast and nothing being cast. */
  ghost predicate Fresh(h: CastedHash, key: string, raw: Obj, call: CastArgs -> Result<Obj, string>) {
    && h.table == Hash([Str(key)], map[Str(key) := raw])
    && h.casted == {} && h.casting == {}
    && h.proc == CastProc(1, call)
  }

  /** Writing "grace" under `:name` and reading it back upcases the new value. */
  lemma UpcaseAfterWrite(h: CastedHash)
    requires h.proc == CastProc(1, UpcaseCall) && !IsCasting(h, Str("name"))
    ensures !IsCasted(Set(h, Sym("name"), Str("grace")), Str("name"))
    ensures Get(Set(h, Sym("name"), Str("grace")), Sym("name")).result == Success(Str("GRACE"))
  {
    var h2 := Set(h, Sym("name"), Str("grace"));
    assert HasKey(h2, Sym("name")) && !IsCasted(h2, Sym("name")) && !IsCasting(h2, Sym("name"));
    UpcaseNames();
    assert CallProc(h2, Str("name"), Str("grace")) == Success(Str("GRACE"));
  }

  /** The first read of "name" upcases "ada" and marks the key cast. */
  lemma UpcaseFirstRead(h: CastedHash)
    requires Fresh(h, "name", Str("ada"), UpcaseCall)
    ensures Get(h, Str("name")).result == Success(Str("ADA"))
    ensures IsCasted(Get(h, Str("name")).state, Sym("name"))
    ensures !IsCasting(Get(h, Str("name")).state, Str("name"))
    ensures Get(h, Str("name")).state.proc == h.proc
  {
    assert HasKey(h, Str("name")) && !IsCasted(h, Str("name")) && !IsCasting(h, Str("name"));
    UpcaseNames();
    assert CallProc(h, Str("name"), Str("ada")) == Success(Str("ADA"));
  }

  /** Reading casts, writing invalidates, and the next read casts the new
      raw value. */
  lemma UpcaseRun(h: CastedHash)
    requires Fresh(h, "name", Str("ada"), UpcaseCall)
    ensures var r1 := Get(h, Str("name"));
            var h2 := Set(r1.state, Sym("name"), Str("grace"));
            && r1.result == Success(Str("ADA"))
            && IsCasted(r1.state, Sym("name"))
            && !IsCasted(h2, Str("name"))
            && Get(h2, Sym("name")).result == Success(Str("GRACE"))
  {
    UpcaseFirstRead(h);
    UpcaseAfterWrite(Get(h, Str("name")).state);
  }

  /** `fetch` of an absent key gives the default, or raises KeyError without
      one; `fetch` of `:n` gives the cast value 1. */
  lemma IncrementRun(h: CastedHash)
    requires Fresh(h, "n", Int(0), IncrementCall)
    ensures Fetch(h, Str("missing"), Some(Int(-1))).result == Success(Int(-1))
    ensures Fetch(h, Str("missing"), None).result == Failure(KeyError(Str("missing")))
    ensures Fetch(h, Sym("n"), None).result == Success(Int(1))
  {
    assert !HasKey(h, Str("missing"));
    assert HasKey(h, Sym("n")) && !IsCasted(h, Sym("n")) && !IsCasting(h, Sym("n"));
    assert CallProc(h, Str("n"), Int(0)) == Success(Int(1));
  }

  /** The constructor from a one-entry plain Hash gives such a fresh hash,
      so the runs above start from `CastedHash.new({key => raw}, proc)`. */
  lemma NewSingleIsFresh(key: string, raw: Obj, call: CastArgs -> Result<Obj, string>)
    ensures New(PlainSource(Hash([Str(key)], map[Str(key) := raw])), Some(CastProc(1, call))).Success?
    ensures Fresh(New(PlainSource(Hash([Str(key)], map[Str(key) := raw])), Some(CastProc(1, call))).value, key, raw, call)
  {
    var plain := Hash([Str(key)], map[Str(key) := raw]);
    var empty := CastedHash(Empty, {}, {}, CastProc(1, call));
    assert Pairs(plain) == [(Str(key), raw)];
    var one := UpdateOne(empty, Str(key), raw, PlainSource(plain));
    assert UpdatePairs(empty, [(Str(key), raw)], PlainSource(plain)) == UpdatePairs(one, [], PlainSource(plain));
    assert one.table == Hash([Str(key)], map[Str(key) := raw]);
  }
}

=== FILE: objects.dfy ===
/** The Ruby objects that appear as keys and values of a CastedHash, and the
    key normalisation `convert_key` (lib/casted_hash.rb:195-197). */
module Objects {

  /** A Ruby object, as far as the hash needs to tell objects apart:
      `nil`, booleans, integers, strings and symbols. */
  datatype Obj = Nil | Bool(b: bool) | Int(i: int) | Str(s: string) | Sym(name: string)

  /** A key is normal when `convert_key` leaves it alone: it is not a Symbol. */
  predicate IsNormal(k: Obj) {
    !k.Sym?
  }

  /** `convert_key`: a Symbol becomes its name as a String; every other
      object is its own key. */
  function ConvertKey(k: Obj): (r: Obj)
    ensures IsNormal(r)
    ensures IsNormal(k) ==> r == k
    ensures k.Sym? ==> r == Str(k.name)
  {
    match k
    case Sym(name) => Str(name)
    case _ => k
  }

  /** Normalising twice is normalising once. */
  lemma ConvertKeyIdempotent(k: Obj)
    ensures ConvertKey(ConvertKey(k)) == ConvertKey(k)
  {
  }

  /** Two keys reach the same entry exactly when they are equal, or one is a
      Symbol and the other the String of the same name. */
  lemma ConvertKeyCollisions(a: Obj, b: Obj)
    ensures ConvertKey(a) == ConvertKey(b) <==>
              || a == b
              || (a.Sym? && b == Str(a.name))
              || (b.Sym? && a == Str(b.name))
  {
  }
}

=== FILE: ruby_hash.dfy ===
/** The part of Ruby's insertion-ordered `Hash` that CastedHash builds on:
    `[]` with the default value nil, `[]=`, `delete`, `key?`, iteration in
    insertion order, and copying one hash into an empty one. */
module RubyHash {
  import opened Objects

  /** An ordered hash: `keys` in insertion order and the entries they name. */
  datatype Hash = Hash(keys: seq<Obj>, vals: map<Obj, Obj>)

  const Empty: Hash := Hash([], map[])

  ghost predicate Distinct(s: seq<Obj>) {
    forall i, j :: 0 <= i < j < |s| ==> s[i] != s[j]
  }

  /** Every key is listed once, and the listed keys are the stored ones. */
  ghost predicate Valid(h: Hash) {
    && Distinct(h.keys)
    && (forall k :: k in h.vals <==> k in h.keys)
  }

  /** `key?` */
  predicate Has(h: Hash, k: Obj) {
    k in h.vals
  }

  /** `[]` of a hash whose default value is nil. */
  function Read(h: Hash, k: Obj): (v: Obj)
    ensures !Has(h, k) ==> v == Nil
    ensures Has(h, k) ==> v == h.vals[k]
  {
    if k in h.vals then h.vals[k] else Nil
  }

  /** `[]=`: a key already present keeps its position, a new key goes last. */
  function Put(h: Hash, k: Obj, v: Obj): (r: Hash)
    ensures r.vals == h.vals[k := v]
    ensures Has(h, k) ==> r.keys == h.keys
    ensures !Has(h, k) ==> r.keys == h.keys + [k]
    ensures Valid(h) ==> Valid(r)
  {
    if Has(h, k) then Hash(h.keys, h.vals[k := v]) else Hash(h.keys + [k], h.vals[k := v])
  }

  /** The position of `x` in `s`. */
  function IndexOf(s: seq<Obj>, x: Obj): (i: nat)
    requires x in s
    ensures i < |s| && s[i] == x
    ensures forall j :: 0 <= j < i ==> s[j] != x
  {
    if s[0] == x then 0 else 1 + IndexOf(s[1..], x)
  }

  /** `s` with every occurrence of `x` removed, the rest in order. */
  function Without(s: seq<Obj>, x: Obj): (r: seq<Obj>)
    ensures forall y :: y in r <==> y in s && y != x
    ensures x !in s ==> r == s
  {
    if s == [] then []
    else if s[0] == x then Without(s[1..], x)
    else [s[0]] + Without(s[1..], x)
  }

  /** Putting a new element in front of a list without repeats keeps it
      without repeats. */
  lemma DistinctCons(a: Obj, t: seq<Obj>)
    requires a !in t && Distinct(t)
    ensures Distinct([a] + t)
  {
    var s := [a] + t;
    forall i, j | 0 <= i < j < |s|
      ensures s[i] != s[j]
    {
      assert s[j] == t[j - 1];
      if i > 0 {
        assert s[i] == t[i - 1];
      }
    }
  }

  /** Removing a key from a list without repeats keeps it without repeats. */
  lemma {:induction false} WithoutDistinct(s: seq<Obj>, x: Obj)
    requires Distinct(s)
    ensures Distinct(Without(s, x))
  {
    if s != [] {
      var tail := s[1..];
      assert Distinct(tail);
      WithoutDistinct(tail, x);
      if s[0] != x {
        assert s[0] !in tail;
        DistinctCons(s[0], Without(tail, x));
      }
    }
  }

  /** Removing a key from a list without repeats removes exactly its one
      position. */
  lemma {:induction false} WithoutPosition(s: seq<Obj>, x: Obj)
    requires Distinct(s) && x in s
    ensures Without(s, x) == s[..IndexOf(s, x)] + s[IndexOf(s, x) + 1..]
  {
    var tail := s[1..];
    if s[0] == x {
      assert x !in tail;
    } else {
      assert Distinct(tail);
      WithoutPosition(tail, x);
      var i := IndexOf(tail, x);
      assert IndexOf(s, x) == i + 1;
      assert Without(s, x) == [s[0]] + Without(tail, x);
      assert Without(tail, x) == tail[..i] + tail[i + 1..];
      assert s[..i + 1] == [s[0]] + tail[..i];
      assert s[i + 2..] == tail[i + 1..];
    }
  }

  /** `delete`: the key leaves both the order and the entries. In a valid
      hash a stored key is taken out of its one position with the other keys
      kept in order, and deleting an absent key changes nothing. */
  function Remove(h: Hash, k: Obj): (r: Hash)
    ensures r.vals == h.vals - {k}
    ensures forall x :: x in r.keys <==> x in h.keys && x != k
    ensures Valid(h) && !Has(h, k) ==> r == h
    ensures Valid(h) && Has(h, k) ==> r.keys == h.keys[..IndexOf(h.keys, k)] + h.keys[IndexOf(h.keys, k) + 1..]
    ensures Valid(h) ==> Valid(r)
  {
    assert Valid(h) ==> Distinct(Without(h.keys, k)) by {
      if Valid(h) {
        WithoutDistinct(h.keys, k);
      }
    }
    assert Valid(h) && Has(h, k) ==> Without(h.keys, k) == h.keys[..IndexOf(h.keys, k)] + h.keys[IndexOf(h.keys, k) + 1..] by {
      if Valid(h) && Has(h, k) {
        WithoutPosition(h.keys, k);
      }
    }
    Hash(Without(h.keys, k), h.vals - {k})
  }

  /** Two hashes with the same key order and the same entries are equal. */
  lemma HashExtensionality(a: Hash, b: Hash)
    requires a.keys == b.keys && a.vals.Keys == b.vals.Keys
    requires forall k :: k in a.vals ==> a.vals[k] == b.vals[k]
    ensures a == b
  {
  }

  /** The pairs `each_pair` yields, in insertion order. */
  function Pairs(h: Hash): (ps: seq<(Obj, Obj)>)
    ensures |ps| == |h.keys|
    ensures forall i :: 0 <= i < |ps| ==> ps[i] == (h.keys[i], Read(h, h.keys[i]))
  {
    seq(|h.keys|, i requires 0 <= i < |h.keys| => (h.keys[i], Read(h, h.keys[i])))
  }

  /** The values `values` returns, in insertion order. */
  function Values(h: Hash): (vs: seq<Obj>)
    ensures |vs| == |h.keys|
    ensures forall i :: 0 <= i < |vs| ==> vs[i] == Read(h, h.keys[i])
  {
    seq(|h.keys|, i requires 0 <= i < |h.keys| => Read(h, h.keys[i]))
  }

  /** A fresh hash filled by writing `hash[k] = src[k]` for each of `ks` in
      turn, the loop `to_hash` and `Hash#update` run. */
  function CopyKeys(src: Hash, ks: seq<Obj>): (r: Hash)
    decreases |ks|
  {
    if ks == [] then Empty
    else Put(CopyKeys(src, ks[..|ks| - 1]), ks[|ks| - 1], Read(src, ks[|ks| - 1]))
  }

  /** Copying distinct keys lists them in the order given, each with its value
      in the source. */
  lemma {:induction false} CopyKeysContents(src: Hash, ks: seq<Obj>)
    requires Distinct(ks)
    ensures CopyKeys(src, ks).keys == ks
    ensures forall k :: k in CopyKeys(src, ks).vals <==> k in ks
    ensures forall k :: k in ks ==> CopyKeys(src, ks).vals[k] == Read(src, k)
    decreases |ks|
  {
    if ks != [] {
      var init := ks[..|ks| - 1];
      var last := ks[|ks| - 1];
      assert ks == init + [last];
      assert Distinct(init);
      CopyKeysContents(src, init);
      assert last !in init;
    }
  }

  /** Copying every key of a valid hash into an empty one gives the same hash. */
  lemma CopyIsIdentity(h: Hash)
    requires Valid(h)
    ensures CopyKeys(h, h.keys) == h
  {
    CopyKeysContents(h, h.keys);
    var c := CopyKeys(h, h.keys);
    assert c.vals.Keys == h.vals.Keys;
    assert forall k :: k in h.vals ==> c.vals[k] == h.vals[k];
  }
}

=== FILE: wrappers.dfy ===
/** Wrappers shared by the model: an optional value, and a
    result that is either a value or the error a Ruby method would raise. */
module Wrappers {

  /** A value that may be absent, such as a method argument the caller may omit. */
  datatype Option<+T> = None | Some(value: T)

  /** The outcome of an operation that either returns a value or raises an error. */
  datatype Result<+T, +E> = Success(value: T) | Failure(error: E)
}
